=== FILE: README.md ===
# monday.com date automation webhook, modelled in Dafny

This project models the decision logic of a small webhook service for monday.com
(`main.py`). The service receives webhook events and, through monday.com's
GraphQL API, copies a parent item's "Creative Deadline" date (column `date7`) into
the "Date" column of its subitems (column `date_mkn2am1b`). The HTTP framework
and the network are abstracted away. A request body arrives as decoded JSON. What
the API endpoint answers to each call is an input. Each handler returns the
ordered list of calls it hands to the API client, plus the value it returns.

Modules, one per part of `main.py`:

- `JsonValue` (`json_value.dfy`): decoded JSON values and the parts of Python's
  dict and list behaviour that the handlers depend on. This covers truthiness,
  `.get` with a default, `[0]`, iteration, the `a or b or c` id chains and
  `next(...)` lookups. It also lists the exceptions raised when a value has the
  wrong shape (`AttributeError`, `TypeError`, `KeyError`) and FastAPI's
  `HTTPException`.
- `MondayApi` (`monday_api.dfy`): the calls as tagged values, the transport
  outcome (a transport exception, or a status, a text and a decoded body), and
  `Classify`, which models `execute_monday_query`.
- `DateAutomation` (`date_automation.dfy`): workflow A, `process_date_automation`.
  It is specified by `PropagationCalls` and implemented by the loop method
  `ProcessDateAutomation`.
- `SubitemSync` (`subitem_sync.dfy`): workflow B, `sync_subitem_with_parent`. It
  is specified by `SyncPlan` and implemented by the method `SyncSubitemWithParent`.
- `Webhook` (`webhook.dfy`): the dispatch of `monday_webhook`. The pure routing
  decision is `RouteOf`. The handler is the method `MondayWebhook`.

Where exceptions go matters, and the model follows the code exactly:

- Workflow A runs its query and everything after it inside a `try`. Any failure
  ends the workflow quietly, and the webhook still replies `{"status": "success"}`.
  A failed write is caught inside its own loop iteration, so the loop goes on.
- Workflow B issues its two queries outside any `try`. An API failure there
  reaches the handler, which replies with an error body. Failures after the two
  queries are swallowed, including a failed write.
- The handler reads `body.get("event", {})` and `event.get("type")` before it
  checks for `challenge`. So a challenge body whose `event` is not a dict gets an
  error body, not an echo.

Some behaviour of `main.py` worth noting, all of it in the model:

- The webhook does not check any signature.
- It does not look at `columnId`: any `create_pulse` or `update_column_value`
  event starts a workflow.
- It keeps no per-subitem results. The reply is `{"status": "success"}` whatever
  the writes did.
- Workflow B does not skip a parent without a date. It writes a made-up
  `{"date": "<year>-03-11"}`.
- Workflow A writes the parent's raw value unchanged. It does not re-encode it.

## Model

| member | source | states |
|---|---|---|
| `JsonValue.FirstTruthy` | main.py:179 | An `a or b or c` chain followed by `if not x` yields the first truthy operand, with every earlier operand falsy. It yields nothing exactly when every operand is falsy. |
| `JsonValue.FirstMatch` | main.py:352-353 | `next(...)` over columns returns the index of the first dict whose key equals the wanted value, and every dict before it differs. It returns `None` exactly when every item is a dict without a match. It raises `AttributeError` exactly when a non-dict comes before any match. |
| `MondayApi.Classify` | main.py:46-87 | The checks run in source order. A missing key gives 500. A transport exception gives 500 with the "Request to Monday.com API failed" detail. A status other than 200 gives that status. An `errors` entry gives 400 with the "returned errors" prefix. The decoded reply comes back unchanged exactly when the key is set, the status is 200 and there is no `errors` key. A 200 reply with `errors` gives 400 with exactly the `ErrorsDetail` text, or the exception that reading the list raises. No error ever carries status 200. |
| `MondayApi.ErrorsReported` | main.py:77-81 | For any call whose 200 reply carries an `errors` list of objects with string messages or none, the client raises 400 with the prefix followed by every message in order, joined by ", ". |
| `MondayApi.ErrorsDetail` | main.py:77-81 | The detail for an `errors` reply always starts with "Monday.com API returned errors: ". A malformed errors list raises a non-HTTP exception instead. |
| `MondayApi.MessageValues` | main.py:78 | Reading the messages succeeds exactly when every entry is a dict. Entry i's message is its `message`, or "Unknown error" when it has none. Otherwise the `.get` raises `AttributeError`. |
| `MondayApi.Texts` | main.py:79 | `join` succeeds exactly when every message is a string, and then keeps each text in order. Otherwise it raises `TypeError`. |
| `MondayApi.MalformedErrorsRaise` | main.py:77-79 | An `errors` list with an entry that is not a dict, or with a dict whose message is present and not a string, raises that exception instead of reporting 400. |
| `MondayApi.FirstItem` | main.py:208-214 | A reply without `data` gives no item. A `data` that is not a dict raises `AttributeError`. A falsy `items` gives no item. A non-empty `items` list gives its first element. Any other item found is the first character of a string `items`. A dict raises `KeyError` and a number raises `TypeError`. The same reading is at main.py:340-345 and 367-372. |
| `MondayApi.ErrorMessagesInOrder` | main.py:78-79 | For a list of error objects, each with a string message or none, the detail is the prefix followed by every message in order, joined by ", ". A missing message reads "Unknown error". |
| `DateAutomation.ParentItemId` | main.py:179-183 | The item id is `pulseId`, else `pulse_id`, else `itemId`, taking the first truthy one. Each of the three cases is stated. There is none exactly when all three are falsy. |
| `DateAutomation.ParentSnapshot` | main.py:205-239 | When the reply allows the workflow to continue, the first item is a dict. The value is the `value` of its first column value, and it is neither empty nor "null". The subitems are what iterating its `subitems` yields, and there is at least one. |
| `DateAutomation.SnapshotOfParent` | main.py:205-239 | Conversely, a first item whose first column value carries a non-empty value and whose `subitems` is a non-empty list is read as that value and those subitems. The item and the column may hold any other fields, such as `name` and `text`. |
| `DateAutomation.SubitemWrites` | main.py:250-269 | There are at most as many writes as subitems. Every write targets column `date_mkn2am1b`, carries the parent's value unchanged, and has a truthy board id and item id. |
| `DateAutomation.SubitemTarget` | main.py:251-256 | Reading a subitem succeeds exactly when it is a dict whose `board`, if present, is a dict. It gives a target exactly when `id` and `board.id` are both truthy, and that target carries those two values. Otherwise the subitem is skipped. |
| `DateAutomation.PropagationCalls` | main.py:173-272 | There are no calls exactly when no item id is present. Otherwise the first call is the parent query, and a failed query means no other call. Every later call is a write to `date_mkn2am1b`, all with the same value, which is neither empty nor "null". The plan depends on the endpoint only through the query's reply, so failing writes do not change which writes are attempted. |
| `DateAutomation.ProcessDateAutomation` | main.py:173-272 | The workflow issues exactly the calls of `PropagationCalls`: one query, then, for a dated parent with subitems, the writes of the subitem loop. |
| `DateAutomation.WriteSubitems` | main.py:250-269 | The loop over the subitems issues exactly the writes of `SubitemWrites`: one per subitem with both ids, in order. A failed write does not stop the loop. A malformed subitem ends it. |
| `DateAutomation.WriteOutcomesIrrelevant` | main.py:265-269 | Two endpoints that give the same answer to the parent query get the same calls, however differently they answer the writes. So the writes attempted do not depend on which of them fail. |
| `DateAutomation.WritesDistribute` | main.py:250-263 | Over subitems that are all well-formed dicts, the writes for `a + b` are the writes for `a` followed by the writes for `b`. |
| `DateAutomation.OneSubitem` | main.py:251-263 | A single well-formed subitem gives exactly one write, to its board and id, when it has both ids. Otherwise it gives none. |
| `DateAutomation.MalformedSubitemEndsLoop` | main.py:250-272 | A subitem that is not a dict, or whose board is not a dict, raises into the outer handler. No subitem after it gets a write. |
| `DateAutomation.EverySubitemWritten` | main.py:250-263 | When every subitem has both ids, there are as many writes as subitems, and write k goes to subitem k's board and id. |
| `DateAutomation.NoWriteWithoutDateOrSubitems` | main.py:205-237 | In each of these cases the only call is the parent query: the item is not found, it has no column values, its first column's date is empty or "null", or it has no subitems. The item may hold any other fields. |
| `DateAutomation.WritesFollowSubitems` | main.py:205-263 | For any reply whose first item has a dated first column and a non-empty subitems list, the calls are the query followed by `SubitemWrites` of those subitems with that raw value. The item may hold any other fields. |
| `SubitemSync.SyncIdsOf` | main.py:285-294 | The ids are present exactly when (`itemId` or `pulseId`), `boardId`, `parentItemId` and `parentItemBoardId` are all truthy. The subitem id is `itemId` when truthy, else `pulseId`. |
| `SubitemSync.ColumnIndex` | main.py:352-362 | The lookup picks the first column with the fixed id. When no column has that id, it picks the first column of type "date". It finds none exactly when every column is a dict with neither. It raises only if some column is not a dict. |
| `SubitemSync.ChosenColumnUnique` | main.py:352-358 | The preferred-then-fallback rule determines at most one column. |
| `SubitemSync.ChosenColumnFound` | main.py:352-358 | Conversely, whenever a column is the chosen one, the lookup returns it. This holds even when a column that is not a dict comes after the point where the lookup stops. |
| `SubitemSync.ColumnsOf` | main.py:352 | `item.get("column_values", [])` raises `AttributeError` on a non-dict item. It gives no columns when the key is absent, and the list itself when it is one. Any other value succeeds only as a string, whose characters are never dicts, so the column lookup then raises or finds nothing. `null` or a number raises `TypeError`. The same reading is at main.py:378. |
| `SubitemSync.YearText` | main.py:410-411 | `%Y` of the year is four decimal digits. |
| `SubitemSync.YearTextRoundTrip` | main.py:410-411 | The four digits read back as the year. |
| `SubitemSync.ValueToWrite` | main.py:407-415 | An empty or "null" parent value becomes `{"date": "<year>-03-11"}`. Any other value is written unchanged. The written value is never empty, so the branch at main.py:438 is never taken. |
| `SubitemSync.DateWrite` | main.py:338-434 | A parent reply without items gives no write. A write is produced only in one case: both replies have a first item that is a dict, both items' `column_values` are lists, and both column lookups find a column without raising. Any fault on the way is swallowed, with no write. The write always goes to the subitem's board and id and carries a non-empty value. |
| `SubitemSync.SyncPlan` | main.py:274-443 | There are no calls exactly when an id is missing. Otherwise there are at most three calls, in order: the parent query, the subitem query, one write. The write goes to the subitem's board and id and carries a non-empty value. A failed parent query raises its failure after one call. A failed subitem query raises its failure after two calls. When both queries succeed, nothing is raised. A third call is exactly the write that `DateWrite` derives from the two replies. |
| `SubitemSync.SyncSubitemWithParent` | main.py:274-443 | The method issues exactly the calls of `SyncPlan` and raises exactly its exception. |
| `SubitemSync.WritesChosenColumns` | main.py:338-434 | When both items are found and both have a chosen date column, the single write goes to the chosen subitem column on the subitem's board and id. It carries the chosen parent column's value, or the fabricated date when that value is empty. The items may hold any other fields. |
| `SubitemSync.NoWriteWithoutParentDateColumn` | main.py:338-362 | A found parent with neither a `date7` column nor a "date" column gets both queries and no write, whatever else the item holds. |
| `SubitemSync.NoWriteWithoutSubitemDateColumn` | main.py:374-388 | A found subitem with neither a `date_mkn2am1b` column nor a "date" column gets both queries and no write. This holds even when the parent has a date column, and whatever else the items hold. |
| `SubitemSync.NoWriteWhenItemMissing` | main.py:338-370 | If either query's reply has no items, the workflow makes both queries and no write. |
| `Webhook.RouteOf` | main.py:130-156 | The body raises exactly when it, or its `event`, is not a dict. It is a handshake exactly when it is readable and has `challenge`, whatever the event type. It is ignored exactly when it has no challenge and its type is neither `create_pulse` nor `update_column_value`. Those two types go to workflow B exactly when `parentItemId` is truthy. |
| `Webhook.MondayWebhook` | main.py:102-171 | An undecodable body gives an error body carrying HTTP 400. A challenge is echoed unchanged with no call. Other event types are acknowledged with no call. Workflow A always ends in an acknowledgement, with its planned calls. A failed query in workflow B gives an error body, never a raise. Only the two item event types make any call. |

## Left out

- The FastAPI app, CORS middleware, the `/test` endpoint, the `/` route that
  delegates to `/webhook`, and uvicorn startup. These are framework plumbing.
- The HTTP transport and environment loading. The API key is a boolean. The
  endpoint's answer to each call is an input function (`Api.respond`).
- Raw-body decoding. The request is either decoded JSON or undecodable text.
- The GraphQL query texts, and the interpolation of the item id into workflow A's
  query. Calls are tags carrying the ids and values they send.
- Logging (`print`), the traceback and timestamp in the error body, and the
  readable-date parse at main.py:395-404, which only prints. The exception text
  `str(e)` is not modelled: the error reply carries the exception value itself.
- The branch for event types containing "subitem" (main.py:153-154). It only
  prints, and its reply is the same as for any other type.
- `async`/`await`. The calls are awaited one after another, so the model is sequential.
- JSON numbers are integers. Floats are not modelled, and only their truthiness
  would matter.
- API replies whose top-level body is not a JSON object, or does not decode at
  all. These are not modelled.
- `JsonValue.Elements`: iterating a non-empty dict is modelled as raising
  `AttributeError` at once. Python iterates the dict's keys and raises on the
  first `.get`. The key order is not represented, and no call is made in between.
- `Webhook.MondayWebhook`: the current year comes in as a parameter limited to
  1000-9999. Below 1000, the zero padding of `%Y` depends on the platform.
  `SubitemSync.SyncPlan` and `SubitemSync.SyncSubitemWithParent` have the same limit.

=== FILE: date_automation.dfy ===
/** Workflow A, `process_date_automation` (main.py:173-272): copy a parent
    item's "date7" value into the "date_mkn2am1b" column of each of its subitems. */
module DateAutomation {
  import opened JsonValue
  import opened MondayApi

  /** `event.get("pulseId") or event.get("pulse_id") or event.get("itemId")`, when truthy. */
  function ParentItemId(event: map<string, Json>): (r: Option<Json>)
    ensures r.Some? ==> Truthy(r.value)
    ensures r.None? <==>
      !Truthy(Field(event, "pulseId")) && !Truthy(Field(event, "pulse_id")) && !Truthy(Field(event, "itemId"))
    ensures Truthy(Field(event, "pulseId")) ==> r == Some(Field(event, "pulseId"))
    ensures !Truthy(Field(event, "pulseId")) && Truthy(Field(event, "pulse_id")) ==> r == Some(Field(event, "pulse_id"))
    ensures !Truthy(Field(event, "pulseId")) && !Truthy(Field(event, "pulse_id")) && Truthy(Field(event, "itemId")) ==>
      r == Some(Field(event, "itemId"))
  {
    var operands := [Field(event, "pulseId"), Field(event, "pulse_id"), Field(event, "itemId")];
    var r := FirstTruthy(operands);
    assert operands[0] == Field(event, "pulseId") && operands[1] == Field(event, "pulse_id");
    assert operands[2] == Field(event, "itemId");
    r
  }

  /** What the workflow takes from the query reply: the parent's raw date value
      and the subitems it will visit. */
  datatype Snapshot = Snapshot(value: Json, subitems: seq<Json>)

  /** The reading of the reply inside the workflow's `try` (main.py:208-239): `None`
      where the source returns early, a fault where Python would raise. */
  function ParentSnapshot(reply: map<string, Json>): (r: Result<Option<Snapshot>, Fault>)
    ensures r.Success? && r.value.Some? ==> !NoValue(r.value.value.value) && r.value.value.subitems != []
    ensures r.Success? && r.value.Some? ==>
      FirstItem(reply).Success? && FirstItem(reply).value.Some? && FirstItem(reply).value.value.Object? &&
      var parent := FirstItem(reply).value.value.fields;
      Field(parent, "column_values").Array? && Field(parent, "column_values").items != [] &&
      Field(parent, "column_values").items[0].Object? &&
      r.value.value.value == Field(Field(parent, "column_values").items[0].fields, "value") &&
      Elements(Field(parent, "subitems")) == Success(r.value.value.subitems)
  {
    var found :- FirstItem(reply);
    if found.None? then Success(None)
    else if !found.value.Object? then Failure(AttributeError) // `parent.get("name", ...)` raises
    else
      var parent := found.value.fields;
      var columnValues := Field(parent, "column_values");
      if !Truthy(columnValues) then Success(None)
      else
        var dateColumn :- First(columnValues);
        if !Truthy(dateColumn) then Success(None)
        else
          var value :- Get(dateColumn, "value", Null);
          if NoValue(value) then Success(None)
          else
            var subitems := Field(parent, "subitems");
            if !Truthy(subitems) then Success(None)
            else
              var elements :- Elements(subitems);
              Success(Some(Snapshot(value, elements)))
  }

  /** Where one subitem's write goes. */
  datatype Target = Target(boardId: Json, itemId: Json)

  /** One iteration's reading of a subitem (main.py:251-256): its target when it
      has both an id and a board id, `None` when it is skipped, a fault when the
      subitem or its board is not a dict. */
  function SubitemTarget(subitem: Json): (r: Result<Option<Target>, Fault>)
    ensures r.Success? <==>
      subitem.Object? && ("board" in subitem.fields ==> subitem.fields["board"].Object?)
    ensures r.Success? ==>
      var board := if "board" in subitem.fields then subitem.fields["board"].fields else map[];
      var id, boardId := Field(subitem.fields, "id"), Field(board, "id");
      r.value == (if Truthy(id) && Truthy(boardId) then Some(Target(boardId, id)) else None)
  {
    if !subitem.Object? then Failure(AttributeError) // `subitem.get("id")` raises
    else
      var id := Field(subitem.fields, "id");
      var board := if "board" in subitem.fields then subitem.fields["board"] else Object(map[]);
      var boardId :- Get(board, "id", Null);
      Success(if Truthy(id) && Truthy(boardId) then Some(Target(boardId, id)) else None)
  }

  /** The write planned for a subitem with both ids. */
  function WriteTo(t: Target, value: Json): Call {
    ChangeColumnValue(t.boardId, t.itemId, Str(SubitemDateColumn), value)
  }

  /** The writes the loop issues from the subitems it has left to visit. A fault
      leaves the loop: it is caught by the handler around the whole loop. A write
      that fails is caught inside its own iteration, so it is not an input here. */
  function SubitemWrites(subitems: seq<Json>, value: Json): (r: seq<Call>)
    ensures |r| <= |subitems|
    ensures forall k :: 0 <= k < |r| ==>
      r[k].ChangeColumnValue? && r[k].columnId == Str(SubitemDateColumn) && r[k].value == value &&
      Truthy(r[k].boardId) && Truthy(r[k].itemId)
  {
    if subitems == [] then []
    else match SubitemTarget(subitems[0])
      case Failure(_) => []
      case Success(None) => SubitemWrites(subitems[1..], value)
      case Success(Some(t)) => [WriteTo(t, value)] + SubitemWrites(subitems[1..], value)
  }

  /** Every call the workflow hands to the API client, in order. It depends on the
      endpoint only through the reply to the parent query: which writes fail does
      not change which writes are attempted. */
  function PropagationCalls(event: map<string, Json>, api: Api): (r: seq<Call>)
    ensures r == [] <==> ParentItemId(event).None?
    ensures r != [] ==> r[0] == ParentWithSubitems(ParentItemId(event).value)
    ensures r != [] && Execute(api, r[0]).Failure? ==> r == [r[0]]
    ensures forall k :: 1 <= k < |r| ==>
      r[k].ChangeColumnValue? && r[k].columnId == Str(SubitemDateColumn) && !NoValue(r[k].value)
    ensures forall k :: 1 <= k < |r| ==> r[k].value == r[1].value
  {
    match ParentItemId(event)
    case None => []
    case Some(id) =>
      var query := ParentWithSubitems(id);
      match Execute(api, query)
      case Failure(_) => [query]
      case Success(reply) =>
        match ParentSnapshot(reply)
        case Success(Some(snapshot)) => [query] + SubitemWrites(snapshot.subitems, snapshot.value)
        case _ => [query]
  }

  /** The workflow itself: one query, then one write per eligible subitem. */
  method ProcessDateAutomation(event: map<string, Json>, api: Api) returns (calls: seq<Call>)
    ensures calls == PropagationCalls(event, api)
  {
    var itemId := ParentItemId(event);
    if itemId.None? {
      return [];
    }
    var query := ParentWithSubitems(itemId.value);
    calls := [query];
    var result := Execute(api, query);
    if result.Failure? {
      return;
    }
    var snapshot := ParentSnapshot(result.value);
    if !(snapshot.Success? && snapshot.value.Some?) {
      return;
    }
    var writes := WriteSubitems(snapshot.value.value.subitems, snapshot.value.value.value);
    calls := calls + writes;
  }

  /** The loop over the subitems (main.py:250-269): one write per subitem with
      both ids, in order, until a subitem that is not a dict ends it. */
  method WriteSubitems(subitems: seq<Json>, value: Json) returns (writes: seq<Call>)
    ensures writes == SubitemWrites(subitems, value)
  {
    writes := [];
    var rest := subitems;
    while rest != []
      invariant writes + SubitemWrites(rest, value) == SubitemWrites(subitems, value)
      decreases |rest|
    {
      var target := SubitemTarget(rest[0]);
      if target.Failure? {
        assert writes + [] == writes;
        return;
      }
      if target.value.Some? {
        var write := WriteTo(target.value.value, value);
        assert (writes + [write]) + SubitemWrites(rest[1..], value) ==
          writes + ([write] + SubitemWrites(rest[1..], value));
        // The write's outcome is caught and logged inside the iteration; the loop goes on.
        writes := writes + [write];
      }
      rest := rest[1..];
    }
    assert writes + [] == writes;
  }

  /** Two endpoints that answer the parent query alike get the same calls, however
      differently they answer the writes: a failed write stops nothing. */
  lemma WriteOutcomesIrrelevant(event: map<string, Json>, api1: Api, api2: Api)
    requires api1.keyConfigured == api2.keyConfigured
    requires forall id :: api1.respond(ParentWithSubitems(id)) == api2.respond(ParentWithSubitems(id))
    ensures PropagationCalls(event, api1) == PropagationCalls(event, api2)
  {
  }

  /** Subitems that are dicts with a dict (or no) board: the loop runs through them. */
  predicate WellFormed(subitems: seq<Json>) {
    forall i :: 0 <= i < |subitems| ==> SubitemTarget(subitems[i]).Success?
  }

  /** Over well-formed subitems, the writes are those of each subitem in turn. */
  lemma {:induction false} WritesDistribute(a: seq<Json>, b: seq<Json>, value: Json)
    requires WellFormed(a)
    ensures SubitemWrites(a + b, value) == SubitemWrites(a, value) + SubitemWrites(b, value)
  {
    if a != [] {
      assert (a + b)[0] == a[0];
      assert (a + b)[1..] == a[1..] + b;
      assert WellFormed(a[1..]) by {
        forall i | 0 <= i < |a[1..]| ensures SubitemTarget(a[1..][i]).Success? {
          assert a[1..][i] == a[i + 1];
        }
      }
      WritesDistribute(a[1..], b, value);
      var target := SubitemTarget(a[0]);
      if target.value.Some? {
        var w := WriteTo(target.value.value, value);
        assert [w] + (SubitemWrites(a[1..], value) + SubitemWrites(b, value)) ==
          ([w] + SubitemWrites(a[1..], value)) + SubitemWrites(b, value);
      }
    } else {
      assert a + b == b;
    }
  }

  /** One subitem gives one write exactly when it has both ids. */
  lemma OneSubitem(s: Json, value: Json)
    requires SubitemTarget(s).Success?
    ensures SubitemTarget(s).value.Some? ==> SubitemWrites([s], value) == [WriteTo(SubitemTarget(s).value.value, value)]
    ensures SubitemTarget(s).value.None? ==> SubitemWrites([s], value) == []
  {
  }

  /** A subitem that is not a dict, or whose board is not a dict, ends the loop:
      the subitems after it get no write. */
  lemma {:induction false} MalformedSubitemEndsLoop(a: seq<Json>, bad: Json, b: seq<Json>, value: Json)
    requires WellFormed(a)
    requires SubitemTarget(bad).Failure?
    ensures SubitemWrites(a + [bad] + b, value) == SubitemWrites(a, value)
  {
    WritesDistribute(a, [bad] + b, value);
    assert a + [bad] + b == a + ([bad] + b);
    assert ([bad] + b)[0] == bad;
  }

  /** When every subitem has both ids, write k goes to subitem k. */
  lemma {:induction false} EverySubitemWritten(subitems: seq<Json>, value: Json)
    requires forall i :: 0 <= i < |subitems| ==>
      SubitemTarget(subitems[i]).Success? && SubitemTarget(subitems[i]).value.Some?
    ensures |SubitemWrites(subitems, value)| == |subitems|
    ensures forall k :: 0 <= k < |subitems| ==>
      SubitemWrites(subitems, value)[k] == WriteTo(SubitemTarget(subitems[k]).value.value, value)
  {
    if subitems != [] {
      var rest := subitems[1..];
      assert forall i :: 0 <= i < |rest| ==> rest[i] == subitems[i + 1];
      EverySubitemWritten(rest, value);
    }
  }

  /** A parent whose first column has a value and whose subitems are a non-empty
      list is read as that value and those subitems, whatever else either holds. */
  lemma SnapshotOfParent(reply: map<string, Json>, parent: map<string, Json>, date: map<string, Json>,
                         rest: seq<Json>, subitems: seq<Json>)
    requires FirstItem(reply) == Success(Some(Object(parent)))
    requires Field(parent, "column_values") == Array([Object(date)] + rest)
    requires !NoValue(Field(date, "value"))
    requires Field(parent, "subitems") == Array(subitems) && subitems != []
    ensures ParentSnapshot(reply) == Success(Some(Snapshot(Field(date, "value"), subitems)))
  {
  }

  /** The workflow issues its query and no write when the item is not found, has
      no column values, has an empty or "null" date, or has no subitems. */
  lemma NoWriteWithoutDateOrSubitems(event: map<string, Json>, api: Api, parent: map<string, Json>,
                                     date: map<string, Json>, rest: seq<Json>)
    requires ParentItemId(event).Some?
    requires var result := Execute(api, ParentWithSubitems(ParentItemId(event).value));
      result.Success? &&
      (FirstItem(result.value) == Success(None) ||
       (FirstItem(result.value) == Success(Some(Object(parent))) &&
        (!Truthy(Field(parent, "column_values")) ||
         (Field(parent, "column_values") == Array([Object(date)] + rest) &&
          (NoValue(Field(date, "value")) || !Truthy(Field(parent, "subitems")))))))
    ensures PropagationCalls(event, api) == [ParentWithSubitems(ParentItemId(event).value)]
  {
  }

  /** A dated parent with subitems gets one write per eligible subitem, in order,
      each carrying the parent's raw value unchanged. */
  lemma WritesFollowSubitems(event: map<string, Json>, api: Api, parent: map<string, Json>,
                             date: map<string, Json>, rest: seq<Json>, subitems: seq<Json>)
    requires ParentItemId(event).Some?
    requires var result := Execute(api, ParentWithSubitems(ParentItemId(event).value));
      result.Success? && FirstItem(result.value) == Success(Some(Object(parent)))
    requires Field(parent, "column_values") == Array([Object(date)] + rest)
    requires !NoValue(Field(date, "value"))
    requires Field(parent, "subitems") == Array(subitems) && subitems != []
    ensures PropagationCalls(event, api) ==
      [ParentWithSubitems(ParentItemId(event).value)] + SubitemWrites(subitems, Field(date, "value"))
  {
  }
}

=== FILE: json_value.dfy ===
/** Decoded JSON values, the exceptions the handlers can raise, and the parts of
    Python's dict and list protocol (truthiness, `get`, `[0]`, iteration, the
    `or` chain and `next(...)`) that the webhook handlers rely on. */
module JsonValue {

  datatype Option<+T> = None | Some(value: T)

  datatype Result<+T, +E> = Success(value: T) | Failure(error: E) {
    predicate IsFailure() { Failure? }

    function PropagateFailure<U>(): Result<U, E>
      requires Failure?
    {
      Failure(error)
    }

    function Extract(): T
      requires Success?
    {
      value
    }
  }

  /** The exceptions raised on the paths modelled here. */
  datatype Fault =
    | AttributeError                         // `.get` on a value that is not a dict
    | TypeError                              // indexing or iterating a number or a boolean; joining a non-string
    | KeyError                               // `[0]` on a dict, whose keys are strings
    | HttpError(status: int, detail: string) // FastAPI's HTTPException

  /** A value as Python's json module decodes it. Numbers are integers here. */
  datatype Json =
    | Null
    | Bool(b: bool)
    | Int(i: int)
    | Str(s: string)
    | Array(items: seq<Json>)
    | Object(fields: map<string, Json>)

  /** Python's truth value of a decoded value: null, false, 0 and empty containers are false. */
  predicate Truthy(j: Json) {
    match j
    case Null => false
    case Bool(b) => b
    case Int(i) => i != 0
    case Str(s) => s != ""
    case Array(items) => items != []
    case Object(fields) => fields != map[]
  }

  /** `d.get(key)` on a dict `d`: None, decoded as null, when the key is absent. */
  function Field(fields: map<string, Json>, key: string): Json {
    if key in fields then fields[key] else Null
  }

  /** `j.get(key, default)`: only a dict has `get`. */
  function Get(j: Json, key: string, default: Json): Result<Json, Fault> {
    if j.Object? then Success(if key in j.fields then j.fields[key] else default)
    else Failure(AttributeError)
  }

  /** `j[0]` on a value the caller has just found truthy. */
  function First(j: Json): Result<Json, Fault>
    requires Truthy(j)
  {
    match j
    case Array(items) => Success(items[0])
    case Str(s) => Success(Str([s[0]]))
    case Object(_) => Failure(KeyError)
    case _ => Failure(TypeError)
  }

  /** The elements a `for` loop over `j` visits when each is read with `.get`
      straight away. A dict yields its keys, which are strings, so the first
      `.get` on one of them raises: a non-empty dict fails outright. */
  function Elements(j: Json): Result<seq<Json>, Fault> {
    match j
    case Array(items) => Success(items)
    case Str(s) => Success(seq(|s|, i requires 0 <= i < |s| => Str([s[i]])))
    case Object(fields) => if fields == map[] then Success([]) else Failure(AttributeError)
    case _ => Failure(TypeError)
  }

  /** `a or b or c ...` followed by `if not x: return`: the first truthy operand, if any. */
  function FirstTruthy(operands: seq<Json>): (r: Option<Json>)
    ensures r.None? <==> forall i :: 0 <= i < |operands| ==> !Truthy(operands[i])
    ensures r.Some? ==>
      exists i :: 0 <= i < |operands| && operands[i] == r.value && Truthy(operands[i]) &&
        forall j :: 0 <= j < i ==> !Truthy(operands[j])
  {
    if operands == [] then None
    else if Truthy(operands[0]) then Some(operands[0])
    else
      var r := FirstTruthy(operands[1..]);
      assert forall i :: 1 <= i < |operands| ==> operands[i] == operands[1..][i - 1];
      r
  }

  /** Every one of the first `n` items is a dict whose `key` is not `want`. */
  predicate NoMatchBefore(items: seq<Json>, n: nat, key: string, want: Json)
    requires n <= |items|
  {
    forall j :: 0 <= j < n ==> items[j].Object? && Field(items[j].fields, key) != want
  }

  /** `next((x for x in items if x.get(key) == want), None)`, as an index into `items`.
      The scan stops at the first match, so later items are never read. */
  function FirstMatch(items: seq<Json>, key: string, want: Json): (r: Result<Option<nat>, Fault>)
    ensures r.Success? && r.value.Some? ==>
      r.value.value < |items| && items[r.value.value].Object? &&
      Field(items[r.value.value].fields, key) == want &&
      NoMatchBefore(items, r.value.value, key, want)
    ensures r == Success(None) <==> NoMatchBefore(items, |items|, key, want)
    ensures r.Failure? ==>
      r.error == AttributeError &&
      exists k :: 0 <= k < |items| && !items[k].Object? && NoMatchBefore(items, k, key, want)
  {
    if items == [] then Success(None)
    else if !items[0].Object? then Failure(AttributeError)
    else if Field(items[0].fields, key) == want then Success(Some(0))
    else
      var rest := FirstMatch(items[1..], key, want);
      assert forall j :: 1 <= j < |items| ==> items[j] == items[1..][j - 1];
      match rest
      case Success(Some(k)) => Success(Some(k + 1))
      case Success(None) => Success(None)
      case Failure(e) =>
        assert exists k :: 0 <= k < |items[1..]| && !items[1..][k].Object? && NoMatchBefore(items[1..], k, key, want);
        var k :| 0 <= k < |items[1..]| && !items[1..][k].Object? && NoMatchBefore(items[1..], k, key, want);
        assert !items[k + 1].Object? && NoMatchBefore(items, k + 1, key, want);
        Failure(e)
  }
}

=== FILE: monday_api.dfy ===
/** The client for monday.com's GraphQL endpoint (main.py:46-87). The HTTP
    transport is abstracted: what the endpoint answers to a call is an input. */
module MondayApi {
  import opened JsonValue

  /** The remote operations the handlers issue. The GraphQL text is abstracted
      to a tag carrying the values that are interpolated or passed as variables. */
  datatype Call =
    | ParentWithSubitems(itemId: Json) // the item's "date7" cell and its subitems
    | ParentColumns(itemId: Json)      // GetParentItem: every column's id, type and value
    | SubitemColumns(itemId: Json)     // GetSubItem: every column's id, type and value
    | ChangeColumnValue(boardId: Json, itemId: Json, columnId: Json, value: Json)

  /** What `requests.post` produced: a transport exception, or a reply whose
      body decodes to a JSON object. */
  datatype Transport =
    | RequestFailed(reason: string)
    | Replied(status: int, text: string, body: map<string, Json>)

  /** Whether an API key is configured, and how the endpoint answers each call. */
  datatype Api = Api(keyConfigured: bool, respond: Call -> Transport)

  /** The "Creative Deadline" column of parent items and the "Date" column of subitems. */
  const ParentDateColumn := "date7"
  const SubitemDateColumn := "date_mkn2am1b"

  const KeyMissing := "Monday.com API key not configured"
  const StatusPrefix := "Error from Monday.com API: "
  const ErrorsPrefix := "Monday.com API returned errors: "
  const FailedPrefix := "Request to Monday.com API failed: "
  const UnknownError := "Unknown error"
  const Separator := ", "

  /** The column value monday.com stores for an empty cell: absent, empty, or the text "null". */
  predicate NoValue(v: Json) {
    !Truthy(v) || v == Str("null")
  }

  /** `sep.join(parts)`. */
  function Join(parts: seq<string>, sep: string): string {
    if parts == [] then ""
    else if |parts| == 1 then parts[0]
    else parts[0] + sep + Join(parts[1..], sep)
  }

  /** `[e.get("message", "Unknown error") for e in entries]`. */
  function MessageValues(entries: seq<Json>): (r: Result<seq<Json>, Fault>)
    ensures r.Success? <==> forall i :: 0 <= i < |entries| ==> entries[i].Object?
    ensures r.Success? ==> |r.value| == |entries|
    ensures r.Success? ==> forall i :: 0 <= i < |entries| ==>
      r.value[i] == (if "message" in entries[i].fields then entries[i].fields["message"] else Str(UnknownError))
    ensures r.Failure? ==> r.error == AttributeError
  {
    if entries == [] then Success([])
    else
      var head :- Get(entries[0], "message", Str(UnknownError));
      var tail :- MessageValues(entries[1..]);
      Success([head] + tail)
  }

  /** The texts `join` needs: every message must be a string. */
  function Texts(values: seq<Json>): (r: Result<seq<string>, Fault>)
    ensures r.Success? <==> forall i :: 0 <= i < |values| ==> values[i].Str?
    ensures r.Success? ==> |r.value| == |values|
    ensures r.Success? ==> forall i :: 0 <= i < |values| ==> r.value[i] == values[i].s
    ensures r.Failure? ==> r.error == TypeError
  {
    if values == [] then Success([])
    else if !values[0].Str? then Failure(TypeError)
    else
      var tail :- Texts(values[1..]);
      Success([values[0].s] + tail)
  }

  /** The detail text of a reply that carries an `errors` entry. */
  function ErrorsDetail(errors: Json): (r: Result<string, Fault>)
    ensures r.Success? ==> ErrorsPrefix <= r.value
    ensures r.Failure? ==> !r.error.HttpError?
  {
    var entries :- Elements(errors);
    var values :- MessageValues(entries);
    var texts :- Texts(values);
    Success(ErrorsPrefix + Join(texts, Separator))
  }

  /** The message an entry of a well-formed `errors` list contributes. */
  function MessageOf(entry: map<string, Json>): string
    requires "message" in entry ==> entry["message"].Str?
  {
    if "message" in entry then entry["message"].s else UnknownError
  }

  /** `execute_monday_query` after the POST: the checks in the order the source
      makes them, with the decoded reply returned unchanged on success. */
  function Classify(keyConfigured: bool, t: Transport): (r: Result<map<string, Json>, Fault>)
    ensures r.Success? <==> keyConfigured && t.Replied? && t.status == 200 && "errors" !in t.body
    ensures r.Success? ==> r.value == t.body
    ensures !keyConfigured ==> r == Failure(HttpError(500, KeyMissing))
    ensures keyConfigured && t.RequestFailed? ==> r == Failure(HttpError(500, FailedPrefix + t.reason))
    ensures keyConfigured && t.Replied? && t.status != 200 ==>
      r == Failure(HttpError(t.status, StatusPrefix + t.text))
    ensures keyConfigured && t.Replied? && t.status == 200 && "errors" in t.body ==>
      var detail := ErrorsDetail(t.body["errors"]);
      (detail.Success? ==> r == Failure(HttpError(400, detail.value))) &&
      (detail.Failure? ==> r == Failure(detail.error))
    ensures keyConfigured && t.Replied? && t.status == 200 && "errors" in t.body && r.error.HttpError? ==>
      r.error.status == 400 && ErrorsPrefix <= r.error.detail
    ensures r.Failure? && r.error.HttpError? ==> r.error.status != 200
  {
    if !keyConfigured then Failure(HttpError(500, KeyMissing))
    else match t
      case RequestFailed(reason) => Failure(HttpError(500, FailedPrefix + reason))
      case Replied(status, text, body) =>
        if status != 200 then Failure(HttpError(status, StatusPrefix + text))
        else if "errors" in body then
          match ErrorsDetail(body["errors"])
          case Success(detail) => Failure(HttpError(400, detail))
          case Failure(e) => Failure(e)
        else Success(body)
  }

  /** One call through the client. */
  function Execute(api: Api, call: Call): Result<map<string, Json>, Fault> {
    Classify(api.keyConfigured, api.respond(call))
  }

  /** `reply.get("data", {}).get("items", [])` followed by `items[0]`: the first
      item of a query reply, or `None` when the list is empty (not found). */
  function FirstItem(reply: map<string, Json>): (r: Result<Option<Json>, Fault>)
    ensures "data" in reply && !reply["data"].Object? ==> r == Failure(AttributeError)
    ensures "data" !in reply ==> r == Success(None)
    ensures "data" in reply && reply["data"].Object? ==>
      var items := Field(reply["data"].fields, "items");
      (!Truthy(items) ==> r == Success(None)) &&
      (items.Array? && items.items != [] ==> r == Success(Some(items.items[0])))
    ensures r.Success? && r.value.Some? ==>
      "data" in reply && reply["data"].Object? &&
      var items := Field(reply["data"].fields, "items");
      (items.Array? && items.items != [] && r.value.value == items.items[0]) ||
      (items.Str? && items.s != [] && r.value.value == Str([items.s[0]]))
  {
    var data := if "data" in reply then reply["data"] else Object(map[]);
    var items :- Get(data, "items", Array([]));
    if !Truthy(items) then Success(None)
    else
      var item :- First(items);
      Success(Some(item))
  }

  /** A GraphQL `errors` list of objects, each with a string message or none,
      is reported as 400 with every message, in order, joined by ", ". */
  lemma {:induction false} ErrorMessagesInOrder(entries: seq<map<string, Json>>)
    requires forall i :: 0 <= i < |entries| ==> "message" in entries[i] ==> entries[i]["message"].Str?
    ensures var texts := seq(|entries|, i requires 0 <= i < |entries| => MessageOf(entries[i]));
      ErrorsDetail(Array(seq(|entries|, i requires 0 <= i < |entries| => Object(entries[i])))) ==
        Success(ErrorsPrefix + Join(texts, Separator))
  {
    var objects := seq(|entries|, i requires 0 <= i < |entries| => Object(entries[i]));
    var texts := seq(|entries|, i requires 0 <= i < |entries| => MessageOf(entries[i]));
    var values := seq(|entries|, i requires 0 <= i < |entries| => Str(MessageOf(entries[i])));
    MessagesOfObjects(objects, values);
    TextsOfStrings(values, texts);
  }

  /** An `errors` list with an entry that is not a dict (its `.get` raises), or
      with a dict whose message is not a string (`join` raises), is reported as
      that exception, never as an HTTP error. */
  lemma MalformedErrorsRaise(entries: seq<Json>, k: nat)
    requires k < |entries|
    requires !entries[k].Object? || ("message" in entries[k].fields && !entries[k].fields["message"].Str?)
    ensures ErrorsDetail(Array(entries)).Failure?
    ensures !ErrorsDetail(Array(entries)).error.HttpError?
  {
  }

  /** A 200 reply whose `errors` list holds objects with string messages (or
      none) is reported as 400 with those messages, in order, joined by ", ". */
  lemma ErrorsReported(api: Api, call: Call, entries: seq<map<string, Json>>)
    requires api.keyConfigured
    requires var t := api.respond(call);
      t.Replied? && t.status == 200 && "errors" in t.body &&
      t.body["errors"] == Array(seq(|entries|, i requires 0 <= i < |entries| => Object(entries[i])))
    requires forall i :: 0 <= i < |entries| ==> "message" in entries[i] ==> entries[i]["message"].Str?
    ensures var texts := seq(|entries|, i requires 0 <= i < |entries| => MessageOf(entries[i]));
      Execute(api, call) == Failure(HttpError(400, ErrorsPrefix + Join(texts, Separator)))
  {
    ErrorMessagesInOrder(entries);
  }

  lemma {:induction false} MessagesOfObjects(objects: seq<Json>, values: seq<Json>)
    requires |objects| == |values|
    requires forall i :: 0 <= i < |objects| ==>
      objects[i].Object? &&
      values[i] == (if "message" in objects[i].fields then objects[i].fields["message"] else Str(UnknownError))
    ensures MessageValues(objects) == Success(values)
  {
    if objects != [] {
      MessagesOfObjects(objects[1..], values[1..]);
      assert [values[0]] + values[1..] == values;
    }
  }

  lemma {:induction false} TextsOfStrings(values: seq<Json>, texts: seq<string>)
    requires |values| == |texts|
    requires forall i :: 0 <= i < |values| ==> values[i] == Str(texts[i])
    ensures Texts(values) == Success(texts)
  {
    if values != [] {
      TextsOfStrings(values[1..], texts[1..]);
      assert [texts[0]] + texts[1..] == texts;
    }
  }
}

=== FILE: subitem_sync.dfy ===
/** Workflow B, `sync_subitem_with_parent` (main.py:274-443): when a subitem is
    created, copy its parent's date into one date column of the new subitem. */
module SubitemSync {
  import opened JsonValue
  import opened MondayApi

  /** The four ids the workflow needs from the event. */
  datatype SyncIds = SyncIds(subitemId: Json, subitemBoardId: Json, parentItemId: Json, parentBoardId: Json)

  /** main.py:285-294: the subitem id is `itemId or pulseId`; all four ids must be truthy. */
  function SyncIdsOf(event: map<string, Json>): (r: Option<SyncIds>)
    ensures r.Some? <==>
      (Truthy(Field(event, "itemId")) || Truthy(Field(event, "pulseId"))) &&
      Truthy(Field(event, "boardId")) && Truthy(Field(event, "parentItemId")) &&
      Truthy(Field(event, "parentItemBoardId"))
    ensures r.Some? ==>
      r.value.subitemId == (if Truthy(Field(event, "itemId")) then Field(event, "itemId") else Field(event, "pulseId")) &&
      r.value.subitemBoardId == Field(event, "boardId") &&
      r.value.parentItemId == Field(event, "parentItemId") &&
      r.value.parentBoardId == Field(event, "parentItemBoardId")
  {
    var operands := [Field(event, "itemId"), Field(event, "pulseId")];
    var subitemId := FirstTruthy(operands);
    assert operands[0] == Field(event, "itemId") && operands[1] == Field(event, "pulseId");
    var boardId, parentId, parentBoardId :=
      Field(event, "boardId"), Field(event, "parentItemId"), Field(event, "parentItemBoardId");
    if subitemId.Some? && Truthy(boardId) && Truthy(parentId) && Truthy(parentBoardId) then
      Some(SyncIds(subitemId.value, boardId, parentId, parentBoardId))
    else None
  }

  /** The column the source settles on: the first with the preferred id, or,
      when no column has that id, the first of type "date". */
  predicate IsChosenColumn(columns: seq<Json>, preferred: string, k: nat)
    requires k < |columns|
  {
    columns[k].Object? &&
    ((Field(columns[k].fields, "id") == Str(preferred) && NoMatchBefore(columns, k, "id", Str(preferred))) ||
     (NoMatchBefore(columns, |columns|, "id", Str(preferred)) &&
      Field(columns[k].fields, "type") == Str("date") && NoMatchBefore(columns, k, "type", Str("date"))))
  }

  /** The two `next(...)` lookups of main.py:352-358 and 378-384, as an index. */
  function ColumnIndex(columns: seq<Json>, preferred: string): (r: Result<Option<nat>, Fault>)
    ensures r.Success? && r.value.Some? ==> r.value.value < |columns| && IsChosenColumn(columns, preferred, r.value.value)
    ensures r == Success(None) <==>
      NoMatchBefore(columns, |columns|, "id", Str(preferred)) &&
      NoMatchBefore(columns, |columns|, "type", Str("date"))
    ensures r.Failure? ==> exists k :: 0 <= k < |columns| && !columns[k].Object?
  {
    var byId :- FirstMatch(columns, "id", Str(preferred));
    if byId.Some? then Success(byId)
    else FirstMatch(columns, "type", Str("date"))
  }

  /** At most one column is the chosen one. */
  lemma ChosenColumnUnique(columns: seq<Json>, preferred: string, k1: nat, k2: nat)
    requires k1 < |columns| && k2 < |columns|
    requires IsChosenColumn(columns, preferred, k1) && IsChosenColumn(columns, preferred, k2)
    ensures k1 == k2
  {
  }

  /** Conversely, the lookup finds the chosen column whenever there is one: a
      column that is not a dict after the lookup has stopped is never read. */
  lemma ChosenColumnFound(columns: seq<Json>, preferred: string, k: nat)
    requires k < |columns| && IsChosenColumn(columns, preferred, k)
    ensures ColumnIndex(columns, preferred) == Success(Some(k))
  {
  }

  /** `item.get("column_values", [])`, iterated. */
  function ColumnsOf(item: Json): (r: Result<seq<Json>, Fault>)
    ensures !item.Object? ==> r == Failure(AttributeError)
    ensures item.Object? && "column_values" !in item.fields ==> r == Success([])
    ensures item.Object? && Field(item.fields, "column_values").Array? ==>
      r == Success(Field(item.fields, "column_values").items)
    ensures r.Success? ==>
      (item.Object? &&
       ((Field(item.fields, "column_values").Array? && r.value == Field(item.fields, "column_values").items) ||
        (forall i :: 0 <= i < |r.value| ==> !r.value[i].Object?)))
  {
    var values :- Get(item, "column_values", Array([]));
    Elements(values)
  }

  const MinYear := 1000
  const MaxYear := 9999

  function Digit(d: int): char
    requires 0 <= d < 10
  {
    (d + '0' as int) as char
  }

  /** `strftime("%Y")` of a four-digit year. */
  function YearText(year: int): (s: string)
    requires MinYear <= year <= MaxYear
    ensures |s| == 4 && forall i :: 0 <= i < 4 ==> '0' <= s[i] <= '9'
  {
    [Digit(year / 1000), Digit(year / 100 % 10), Digit(year / 10 % 10), Digit(year % 10)]
  }

  /** The number a string of decimal digits denotes. */
  function DecimalValue(s: string): int {
    if s == [] then 0 else DecimalValue(s[..|s| - 1]) * 10 + (s[|s| - 1] as int - '0' as int)
  }

  /** The year printed into a fabricated date reads back as that year. */
  lemma YearTextRoundTrip(year: int)
    requires MinYear <= year <= MaxYear
    ensures DecimalValue(YearText(year)) == year
  {
    var s := YearText(year);
    assert s[..3][..2][..1][..0] == [];
    assert DecimalValue(s[..1]) == year / 1000 by {
      assert s[..1][..0] == [];
    }
    assert DecimalValue(s[..2]) == year / 100 by {
      assert s[..2][..1] == s[..1];
    }
    assert DecimalValue(s[..3]) == year / 10 by {
      assert s[..3][..2] == s[..2];
    }
    assert s[..4][..3] == s[..3];
    assert s[..4] == s;
  }

  /** `json.dumps({"date": "<year>-03-11"})`, the value main.py:410-412 makes up. */
  function FabricatedDate(year: int): string
    requires MinYear <= year <= MaxYear
  {
    "{\"date\": \"" + YearText(year) + "-03-11\"}"
  }

  /** main.py:407-413: an empty or "null" parent value is replaced by March 11 of
      the current year; any other value is written unchanged. The written value
      is never empty, so the `else` branch at main.py:438 cannot be taken. */
  function ValueToWrite(parentValue: Json, year: int): (v: Json)
    requires MinYear <= year <= MaxYear
    ensures NoValue(parentValue) ==> v == Str(FabricatedDate(year))
    ensures !NoValue(parentValue) ==> v == parentValue
    ensures !NoValue(v)
  {
    if NoValue(parentValue) then
      var date := FabricatedDate(year);
      assert date[0] == '{';
      Str(date)
    else parentValue
  }

  /** The reading of both replies inside the workflow's `try` (main.py:338-434):
      the one write to issue, `None` where the source returns early, a fault where
      Python would raise (which the `try` swallows). */
  function DateWrite(ids: SyncIds, parentReply: map<string, Json>, subitemReply: map<string, Json>, year: int): (r: Result<Option<Call>, Fault>)
    requires MinYear <= year <= MaxYear
    ensures FirstItem(parentReply) == Success(None) ==> r == Success(None)
    ensures r.Success? && r.value.Some? ==>
      FirstItem(parentReply).Success? && FirstItem(parentReply).value.Some? &&
      FirstItem(subitemReply).Success? && FirstItem(subitemReply).value.Some? &&
      r.value.value.ChangeColumnValue? && r.value.value.boardId == ids.subitemBoardId &&
      r.value.value.itemId == ids.subitemId && !NoValue(r.value.value.value)
    ensures r.Success? && r.value.Some? ==>
      FirstItem(parentReply).Success? && FirstItem(parentReply).value.Some? &&
      FirstItem(subitemReply).Success? && FirstItem(subitemReply).value.Some? &&
      FirstItem(parentReply).value.value.Object? && FirstItem(subitemReply).value.value.Object? &&
      var parentColumns := Field(FirstItem(parentReply).value.value.fields, "column_values");
      var subitemColumns := Field(FirstItem(subitemReply).value.value.fields, "column_values");
      parentColumns.Array? && subitemColumns.Array? &&
      ColumnIndex(parentColumns.items, ParentDateColumn).Success? &&
      ColumnIndex(parentColumns.items, ParentDateColumn).value.Some? &&
      ColumnIndex(subitemColumns.items, SubitemDateColumn).Success? &&
      ColumnIndex(subitemColumns.items, SubitemDateColumn).value.Some?
  {
    var parent :- FirstItem(parentReply);
    if parent.None? then Success(None)
    else
      var parentColumns :- ColumnsOf(parent.value);
      var parentColumn :- ColumnIndex(parentColumns, ParentDateColumn);
      if parentColumn.None? then Success(None)
      else
        var subitem :- FirstItem(subitemReply);
        if subitem.None? then Success(None)
        else
          var subitemColumns :- ColumnsOf(subitem.value);
          var subitemColumn :- ColumnIndex(subitemColumns, SubitemDateColumn);
          if subitemColumn.None? then Success(None)
          else
            var value := Field(parentColumns[parentColumn.value].fields, "value");
            var columnId := Field(subitemColumns[subitemColumn.value].fields, "id");
            Success(Some(ChangeColumnValue(ids.subitemBoardId, ids.subitemId, columnId, ValueToWrite(value, year))))
  }

  /** The calls the workflow hands to the API client, and the exception it raises. */
  datatype SyncOutcome = SyncOutcome(calls: seq<Call>, raised: Option<Fault>)

  /** The workflow's calls: the parent query and the subitem query, whose
      failures propagate to the caller, then at most one write, whose failure and
      any fault in reading the replies are swallowed. */
  function SyncPlan(event: map<string, Json>, api: Api, year: int): (r: SyncOutcome)
    requires MinYear <= year <= MaxYear
    ensures r.calls == [] <==> SyncIdsOf(event).None?
    ensures r.calls == [] ==> r.raised.None?
    ensures |r.calls| <= 3
    ensures r.calls != [] ==> r.calls[0] == ParentColumns(SyncIdsOf(event).value.parentItemId)
    ensures |r.calls| >= 2 ==>
      Execute(api, r.calls[0]).Success? && r.calls[1] == SubitemColumns(SyncIdsOf(event).value.subitemId)
    ensures |r.calls| == 3 ==>
      Execute(api, r.calls[1]).Success? && r.raised.None? && r.calls[2].ChangeColumnValue? &&
      r.calls[2].boardId == SyncIdsOf(event).value.subitemBoardId &&
      r.calls[2].itemId == SyncIdsOf(event).value.subitemId && !NoValue(r.calls[2].value)
    ensures r.raised.Some? ==> r.calls != [] && Execute(api, r.calls[|r.calls| - 1]) == Failure(r.raised.value)
    ensures |r.calls| == 3 ==>
      SyncIdsOf(event).Some? && Execute(api, r.calls[0]).Success? && Execute(api, r.calls[1]).Success? &&
      DateWrite(SyncIdsOf(event).value, Execute(api, r.calls[0]).value, Execute(api, r.calls[1]).value, year) ==
        Success(Some(r.calls[2]))
    ensures SyncIdsOf(event).Some? ==>
      var parentQuery := ParentColumns(SyncIdsOf(event).value.parentItemId);
      var subitemQuery := SubitemColumns(SyncIdsOf(event).value.subitemId);
      (Execute(api, parentQuery).Failure? ==>
         r == SyncOutcome([parentQuery], Some(Execute(api, parentQuery).error))) &&
      (Execute(api, parentQuery).Success? && Execute(api, subitemQuery).Failure? ==>
         r == SyncOutcome([parentQuery, subitemQuery], Some(Execute(api, subitemQuery).error))) &&
      (Execute(api, parentQuery).Success? && Execute(api, subitemQuery).Success? ==>
         r.raised.None? && |r.calls| >= 2)
  {
    match SyncIdsOf(event)
    case None => SyncOutcome([], None)
    case Some(ids) =>
      var parentQuery := ParentColumns(ids.parentItemId);
      match Execute(api, parentQuery)
      case Failure(f) => SyncOutcome([parentQuery], Some(f))
      case Success(parentReply) =>
        var subitemQuery := SubitemColumns(ids.subitemId);
        match Execute(api, subitemQuery)
        case Failure(f) => SyncOutcome([parentQuery, subitemQuery], Some(f))
        case Success(subitemReply) =>
          match DateWrite(ids, parentReply, subitemReply, year)
          case Success(Some(write)) => SyncOutcome([parentQuery, subitemQuery, write], None)
          case _ => SyncOutcome([parentQuery, subitemQuery], None)
  }

  /** The workflow itself: two queries and at most one write, with early returns. */
  method SyncSubitemWithParent(event: map<string, Json>, api: Api, year: int) returns (calls: seq<Call>, raised: Option<Fault>)
    requires MinYear <= year <= MaxYear
    ensures SyncOutcome(calls, raised) == SyncPlan(event, api, year)
  {
    var ids := SyncIdsOf(event);
    if ids.None? {
      return [], None;
    }
    var parentQuery := ParentColumns(ids.value.parentItemId);
    calls := [parentQuery];
    var parentResult := Execute(api, parentQuery);
    if parentResult.Failure? {
      return calls, Some(parentResult.error);
    }
    var subitemQuery := SubitemColumns(ids.value.subitemId);
    calls := [parentQuery, subitemQuery];
    var subitemResult := Execute(api, subitemQuery);
    if subitemResult.Failure? {
      return calls, Some(subitemResult.error);
    }
    raised := None;
    var write := DateWrite(ids.value, parentResult.value, subitemResult.value, year);
    if write.Success? && write.value.Some? {
      // A failed write is caught and logged; the workflow returns normally.
      calls := [parentQuery, subitemQuery, write.value.value];
    }
  }

  /** With both items found and a date column on each, the one write goes to the
      subitem's board and id, into the chosen subitem column, and carries the
      chosen parent column's value, or the fabricated date when that is empty.
      The items and their columns may hold any other fields. */
  lemma WritesChosenColumns(event: map<string, Json>, api: Api, year: int,
                            parentItem: map<string, Json>, subitem: map<string, Json>,
                            parentColumns: seq<Json>, subitemColumns: seq<Json>, p: nat, s: nat)
    requires MinYear <= year <= MaxYear
    requires SyncIdsOf(event).Some?
    requires var ids := SyncIdsOf(event).value;
      var parentResult := Execute(api, ParentColumns(ids.parentItemId));
      var subitemResult := Execute(api, SubitemColumns(ids.subitemId));
      parentResult.Success? && FirstItem(parentResult.value) == Success(Some(Object(parentItem))) &&
      subitemResult.Success? && FirstItem(subitemResult.value) == Success(Some(Object(subitem)))
    requires ColumnsOf(Object(parentItem)) == Success(parentColumns)
    requires ColumnsOf(Object(subitem)) == Success(subitemColumns)
    requires p < |parentColumns| && IsChosenColumn(parentColumns, ParentDateColumn, p)
    requires s < |subitemColumns| && IsChosenColumn(subitemColumns, SubitemDateColumn, s)
    ensures var ids := SyncIdsOf(event).value;
      SyncPlan(event, api, year) == SyncOutcome(
        [ParentColumns(ids.parentItemId), SubitemColumns(ids.subitemId),
         ChangeColumnValue(ids.subitemBoardId, ids.subitemId,
                           Field(subitemColumns[s].fields, "id"),
                           ValueToWrite(Field(parentColumns[p].fields, "value"), year))],
        None)
  {
    ChosenColumnFound(parentColumns, ParentDateColumn, p);
    ChosenColumnFound(subitemColumns, SubitemDateColumn, s);
  }

  /** A parent without a "date7" column and without any column of type "date"
      gets both queries and no write. */
  lemma NoWriteWithoutParentDateColumn(event: map<string, Json>, api: Api, year: int,
                                       parentItem: map<string, Json>, parentColumns: seq<Json>)
    requires MinYear <= year <= MaxYear
    requires SyncIdsOf(event).Some?
    requires var ids := SyncIdsOf(event).value;
      var parentResult := Execute(api, ParentColumns(ids.parentItemId));
      parentResult.Success? && FirstItem(parentResult.value) == Success(Some(Object(parentItem))) &&
      Execute(api, SubitemColumns(ids.subitemId)).Success?
    requires ColumnsOf(Object(parentItem)) == Success(parentColumns)
    requires forall i :: 0 <= i < |parentColumns| ==>
      parentColumns[i].Object? &&
      Field(parentColumns[i].fields, "id") != Str(ParentDateColumn) &&
      Field(parentColumns[i].fields, "type") != Str("date")
    ensures var ids := SyncIdsOf(event).value;
      SyncPlan(event, api, year) == SyncOutcome([ParentColumns(ids.parentItemId), SubitemColumns(ids.subitemId)], None)
  {
  }

  /** A subitem without a "date_mkn2am1b" column and without any column of type
      "date" gets both queries and no write, even when the parent has a date column. */
  lemma NoWriteWithoutSubitemDateColumn(event: map<string, Json>, api: Api, year: int,
                                        parentItem: map<string, Json>, parentColumns: seq<Json>, p: nat,
                                        subitem: map<string, Json>, subitemColumns: seq<Json>)
    requires MinYear <= year <= MaxYear
    requires SyncIdsOf(event).Some?
    requires var ids := SyncIdsOf(event).value;
      var parentResult := Execute(api, ParentColumns(ids.parentItemId));
      var subitemResult := Execute(api, SubitemColumns(ids.subitemId));
      parentResult.Success? && FirstItem(parentResult.value) == Success(Some(Object(parentItem))) &&
      subitemResult.Success? && FirstItem(subitemResult.value) == Success(Some(Object(subitem)))
    requires ColumnsOf(Object(parentItem)) == Success(parentColumns)
    requires p < |parentColumns| && IsChosenColumn(parentColumns, ParentDateColumn, p)
    requires ColumnsOf(Object(subitem)) == Success(subitemColumns)
    requires forall i :: 0 <= i < |subitemColumns| ==>
      subitemColumns[i].Object? &&
      Field(subitemColumns[i].fields, "id") != Str(SubitemDateColumn) &&
      Field(subitemColumns[i].fields, "type") != Str("date")
    ensures var ids := SyncIdsOf(event).value;
      SyncPlan(event, api, year) == SyncOutcome([ParentColumns(ids.parentItemId), SubitemColumns(ids.subitemId)], None)
  {
  }

  /** A parent or subitem the API does not find gets no write. */
  lemma NoWriteWhenItemMissing(event: map<string, Json>, api: Api, year: int)
    requires MinYear <= year <= MaxYear
    requires SyncIdsOf(event).Some?
    requires var ids := SyncIdsOf(event).value;
      var parentResult := Execute(api, ParentColumns(ids.parentItemId));
      var subitemResult := Execute(api, SubitemColumns(ids.subitemId));
      parentResult.Success? && subitemResult.Success? &&
      (FirstItem(parentResult.value) == Success(None) || FirstItem(subitemResult.value) == Success(None))
    ensures var ids := SyncIdsOf(event).value;
      SyncPlan(event, api, year) == SyncOutcome([ParentColumns(ids.parentItemId), SubitemColumns(ids.subitemId)], None)
  {
  }
}

=== FILE: webhook.dfy ===
/** The `/webhook` handler, `monday_webhook` (main.py:102-171): answer the
    registration challenge, route item events to one of the two workflows,
    acknowledge everything else, and turn any exception into an error body. */
module Webhook {
  import opened JsonValue
  import opened MondayApi
  import DateAutomation
  import SubitemSync

  /** The request body: decoded JSON, or text that neither decoder accepts
      (with the first decoder's message). */
  datatype Request = Parsed(body: Json) | Unparseable(reason: string)

  /** The handler's return value: the challenge body echoed, `{"status": "success"}`,
      or `{"status": "error", "error": ...}` carrying the exception. */
  datatype Reply = Echo(body: Json) | Acknowledged | Errored(fault: Fault)

  /** Where the handler sends a decoded body. */
  datatype Route =
    | Handshake
    | PropagateToSubitems(event: map<string, Json>) // workflow A
    | SyncNewSubitem(event: map<string, Json>)      // workflow B
    | Ignore

  const InvalidJson := "Invalid JSON payload: "

  /** `body.get("event", {})` and `event.get("type")` can be evaluated: both are dicts. */
  predicate EventReadable(body: Json) {
    body.Object? && ("event" in body.fields ==> body.fields["event"].Object?)
  }

  /** The event dict of a readable body (`{}` when absent). */
  function EventOf(body: Json): map<string, Json>
    requires EventReadable(body)
  {
    if "event" in body.fields then body.fields["event"].fields else map[]
  }

  /** The two event types that start a workflow. */
  predicate IsItemEvent(event: map<string, Json>) {
    Field(event, "type") == Str("create_pulse") || Field(event, "type") == Str("update_column_value")
  }

  /** main.py:130-156. The event and its type are read before the challenge check,
      so a body that is not a dict, or whose "event" is not a dict, raises even
      when it carries a challenge. */
  function RouteOf(body: Json): (r: Result<Route, Fault>)
    ensures r.Failure? <==> !EventReadable(body)
    ensures r.Failure? ==> r.error == AttributeError
    ensures r == Success(Handshake) <==> EventReadable(body) && "challenge" in body.fields
    ensures r.Success? && r.value.Ignore? <==>
      EventReadable(body) && "challenge" !in body.fields && !IsItemEvent(EventOf(body))
    ensures r.Success? && (r.value.PropagateToSubitems? || r.value.SyncNewSubitem?) ==>
      "challenge" !in body.fields && IsItemEvent(EventOf(body)) && r.value.event == EventOf(body) &&
      (r.value.SyncNewSubitem? <==> Truthy(Field(r.value.event, "parentItemId")))
  {
    var event :- Get(body, "event", Object(map[]));
    if !event.Object? then Failure(AttributeError)
    else if "challenge" in body.fields then Success(Handshake)
    else if !IsItemEvent(event.fields) then Success(Ignore)
    else if Truthy(Field(event.fields, "parentItemId")) then Success(SyncNewSubitem(event.fields))
    else Success(PropagateToSubitems(event.fields))
  }

  /** The handler: the reply and every call it hands to the API client. It never
      raises; only the two queries of workflow B can make it reply with an error. */
  method MondayWebhook(request: Request, api: Api, year: int) returns (reply: Reply, calls: seq<Call>)
    requires SubitemSync.MinYear <= year <= SubitemSync.MaxYear
    ensures request.Unparseable? ==> reply == Errored(HttpError(400, InvalidJson + request.reason)) && calls == []
    ensures request.Parsed? && RouteOf(request.body).Failure? ==> reply == Errored(AttributeError) && calls == []
    ensures request.Parsed? && RouteOf(request.body) == Success(Handshake) ==> reply == Echo(request.body) && calls == []
    ensures request.Parsed? && RouteOf(request.body) == Success(Ignore) ==> reply == Acknowledged && calls == []
    ensures request.Parsed? && RouteOf(request.body).Success? && RouteOf(request.body).value.PropagateToSubitems? ==>
      reply == Acknowledged && calls == DateAutomation.PropagationCalls(RouteOf(request.body).value.event, api)
    ensures request.Parsed? && RouteOf(request.body).Success? && RouteOf(request.body).value.SyncNewSubitem? ==>
      var plan := SubitemSync.SyncPlan(RouteOf(request.body).value.event, api, year);
      calls == plan.calls && reply == (if plan.raised.Some? then Errored(plan.raised.value) else Acknowledged)
    ensures reply.Echo? ==> reply.body == request.body && calls == []
    ensures calls != [] ==> request.Parsed? && EventReadable(request.body) && IsItemEvent(EventOf(request.body))
  {
    if request.Unparseable? {
      return Errored(HttpError(400, InvalidJson + request.reason)), [];
    }
    var route := RouteOf(request.body);
    if route.Failure? {
      return Errored(route.error), [];
    }
    match route.value
    case Handshake =>
      reply, calls := Echo(request.body), [];
    case Ignore =>
      reply, calls := Acknowledged, [];
    case PropagateToSubitems(event) =>
      calls := DateAutomation.ProcessDateAutomation(event, api);
      reply := Acknowledged;
    case SyncNewSubitem(event) =>
      var raised;
      calls, raised := SubitemSync.SyncSubitemWithParent(event, api, year);
      reply := if raised.Some? then Errored(raised.value) else Acknowledged;
  }
}
